=== FILE: README.md ===
# CDE counter — a Dafny model

`count_cdes.py` reads a spreadsheet of studies, where each row has a study id
(the "dbGaP ID" column) and a comma-separated list of variable names (the
"Variables" column). It also reads two reference documents of common data
elements (CDEs):

- Tier 1: a map from category to a map from domain name to codomain name.
- Tier 2: a map from category to a list of names.

For each study it writes one CSV row with:

- how many of its variables are Tier-1 CDEs, and which ones;
- how many are Tier-2 CDEs, and which ones;
- how many are in neither reference set ("Other"), and which ones.

This project models the pure core of `main`, with the file I/O removed. It
has four stages:

- **Extraction** (`Text`, `Variables`): each row's text is split on `","` and
  each piece is stripped of surrounding whitespace. The pieces are then
  unioned into a per-study set. Study ids are kept in the order they were
  first seen, as the Python dict keeps them.
- **Reference flattening** (`Reference`): Tier 1 becomes the set of every key
  and every value of every inner map. Tier 2 becomes the set of every element
  of every list.
- **Classification** (`Tiers`): three independent set comprehensions:
  - Tier 1: in the Tier-1 set and prefixed `nih_`.
  - Tier 2: in the Tier-2 set.
  - Other: in neither set.

  The Other test checks raw Tier-1 membership, without the prefix. So a Tier-1
  name that lacks the prefix and is not a Tier-2 name lands in no tier.
- **Report** (`Report`): one row per study. Each count is the size of its set.
  Each listing is the set's members joined with `", "`, in Python's
  unspecified set iteration order. The model represents that order as some
  enumeration of the set.

The whitespace class that `str.strip()` removes is a parameter `ws: set<char>`.

## Model

| member | source | states |
|---|---|---|
| Text.Split | count_cdes.py:21 | `text.split(",")` gives at least one piece, no piece contains the separator, and joining the pieces with the separator rebuilds the text |
| Text.SplitOfJoin | count_cdes.py:21 | splitting a separator-joined list of pieces that do not contain the separator's first character gives back exactly that list |
| Text.StartsWith | count_cdes.py:50 | `s.startswith(prefix)`: the prefix is no longer than `s` and equals its first characters; `Tiers.Classify` states the Tier-1 test with it |
| Text.Join | count_cdes.py:67-71 | `sep.join(pieces)`: `""` for no pieces, the piece itself for one, the pieces in order with `sep` between neighbours otherwise; `JoinEnds`, `SplitOfJoin` and `Report.ListingRoundTrip` state its properties |
| Text.JoinEnds | count_cdes.py:67-71 | a join is `""` for no pieces; otherwise it begins with the first piece and ends with the last |
| Text.FirstOccurrence | count_cdes.py:21 | returns the index of the first occurrence of the separator, or the length of the text when it does not occur |
| Text.TrimStart | count_cdes.py:21 | the result is a suffix of the input; everything dropped is whitespace, and the result does not start with whitespace |
| Text.TrimEnd | count_cdes.py:21 | the result is a prefix of the input; everything dropped is whitespace, and the result does not end with whitespace |
| Text.Strip | count_cdes.py:21 | the result is no longer than the input, and it neither starts nor ends with whitespace |
| Text.StripSlice | count_cdes.py:21 | the stripped text is a contiguous slice of the input, with only whitespace before it and after it |
| Text.StripCharacterization | count_cdes.py:21 | stripping whitespace + r + whitespace, where r has no whitespace at either end, gives exactly r |
| Text.StripIdempotent | count_cdes.py:21 | stripping twice gives the same result as stripping once |
| Text.StripAddsNoChar | count_cdes.py:21 | stripping adds no character to the text |
| Variables.Tokens | count_cdes.py:21 | a row's variable set is never empty (a cell of whitespace only gives `{""}`); every member has no comma and no surrounding whitespace |
| Variables.TokensArePieces | count_cdes.py:21 | a name is one of the row's variables iff it is the stripped form of one of the text's comma-separated pieces |
| Variables.TokensOfJoin | count_cdes.py:21 | extracting from a comma-joined list of well-formed variables gives exactly the listed variables |
| Variables.StripVariable | count_cdes.py:21 | a well-formed variable strips to itself |
| Text.StripUnchanged | count_cdes.py:21 | a text with no whitespace at either end strips to itself |
| Variables.Parse | count_cdes.py:18-21 | one entry per row, carrying that row's study id and that row's variable set |
| Variables.AddEntry | count_cdes.py:22-24 | a new id is appended to the order and gets the row's set; a known id gets the union of its old set and the row's set; other studies are unchanged; the accumulator stays well formed |
| Variables.FirstIndex | count_cdes.py:22 | the index of the first entry with the given id, or the number of entries when there is none |
| Variables.Accumulate | count_cdes.py:17-24 | the fold of the entries, in order, into the per-study accumulator; `AccumulateSize`, `AccumulateValid`, `AccumulateKeys`, `AccumulateVars` and `AccumulateOrder` state what it holds |
| Variables.AccumulateSize | count_cdes.py:22-24 | each entry adds at most one study, so there are no more studies than entries |
| Variables.Extract | count_cdes.py:17-24 | lines 17-24 on the spreadsheet rows: parse every row, then fold; `ExtractValid`, `ExtractKeys`, `ExtractVars`, `ExtractOrder` and `ExtractPermutation` state what it holds |
| Variables.AccumulateValid | count_cdes.py:17-24 | every id in the order is distinct, and the order holds exactly the ids that have sets |
| Variables.AccumulateKeys | count_cdes.py:17-24 | an id has a set iff some entry carries that id |
| Variables.AccumulateVars | count_cdes.py:17-24 | a variable is in a study's set iff some entry of that study contributes it |
| Variables.AccumulateOrder | count_cdes.py:17-24 | studies appear in strictly increasing order of their first entry |
| Variables.AccumulateSameEntries | count_cdes.py:24 | two entry sequences with the same members give the same sets, whatever the order and repetition |
| Variables.AccumulateRepeatedEntry | count_cdes.py:22-24 | repeating an entry that was already read changes nothing, including the order |
| Variables.AccumulateTwoOfOneStudy | count_cdes.py:22-24 | two rows of one study give one study whose set is the union of the two rows' sets |
| Variables.ExtractValid | count_cdes.py:17-24 | the extracted studies are well formed |
| Variables.ExtractKeys | count_cdes.py:17-24 | the studies are exactly the ids that appear in some row |
| Variables.ExtractVars | count_cdes.py:17-24 | a study's set is the union of the variables of all rows with that id; every member is well formed |
| Variables.ExtractOrder | count_cdes.py:17-24 | study ids are distinct, and an earlier study has a row before the first row of any later study |
| Variables.ExtractWellFormed | count_cdes.py:17-24 | every variable of every study has no comma and no surrounding whitespace |
| Variables.ExtractPermutation | count_cdes.py:18-24 | reordering the rows leaves every study's set unchanged |
| Reference.LoadTier1 | count_cdes.py:30-34 | a name is collected iff it is a key or a value of some category's map |
| Reference.LoadTier2 | count_cdes.py:40-43 | a name is collected iff it is in some category's list |
| Tiers.Classify | count_cdes.py:50-52 | every tier is a subset of the variables; Tier 1 holds exactly the `nih_`-prefixed Tier-1 names, Tier 2 the Tier-2 names, and Other the names in neither set; Other is disjoint from both tiers; with disjoint reference sets, Tier 1 and Tier 2 are disjoint |
| Tiers.UnprefixedTier1Name | count_cdes.py:50-52 | a Tier-1 name without the prefix is never Tier 1 and never Other; it is Tier 2 iff it is a Tier-2 name |
| Tiers.Coverage | count_cdes.py:50-52 | the tiers cover all of a study's variables iff every Tier-1, non-Tier-2 variable carries the prefix |
| Tiers.CountsBound | count_cdes.py:50-52 | with disjoint reference sets, the three counts sum to at most the number of variables, and to exactly that number when the tiers cover the variables |
| Tiers.TiersMayOverlap | count_cdes.py:50-51 | every prefixed name in both reference sets is counted in Tier 1 and in Tier 2 |
| Tiers.OverlapExample | count_cdes.py:50-52 | for example, `nih_a` in both reference sets is in Tier 1 and Tier 2, and Other is empty |
| Tiers.TiersMayMissVariable | count_cdes.py:50-52 | every variable that is an unprefixed Tier-1 name and no Tier-2 name is in none of the three tiers |
| Tiers.MissExample | count_cdes.py:50-52 | for example, the Tier-1-only name `x` leaves all three tiers empty |
| Tiers.ClassifyExample | count_cdes.py:50-52 | one concrete study sorted into its three tiers |
| Report.EnumerationLength | count_cdes.py:67 | listing a set's members once each gives exactly as many items as the set has |
| Report.Enumerate | count_cdes.py:67-71 | iterating a set visits every member exactly once |
| Report.EmptyListing | count_cdes.py:67-71 | an empty tier is listed as the empty string |
| Report.ListingRoundTrip | count_cdes.py:67-71 | splitting a listing of a non-empty set of comma-free names on `", "` gives as many pieces as members, and exactly those members |
| Report.ListingSplitsBack | count_cdes.py:67-71 | every listing is either empty for an empty tier, or splits back into exactly its tier |
| Report.AssembleRow | count_cdes.py:65-71 | the row carries the study id; each count is the tier's size, and each listing lists the tier |
| Report.ReportStudies | count_cdes.py:64-71 | one row per study, in the order of the studies; each row reports its study's tiers, and every listing splits back into its tier |
| Report.CountCdes | count_cdes.py:17-71 | one row per study, in first-seen order; each row reports its study's tiers, and every listing splits back into its tier |

## Left out

- Spreadsheet reading (line 14) is left out. The model starts from the rows as (study id, text) pairs. Missing (NaN) cells, and cells that are not strings, are not modelled.
- JSON reading (lines 27-28 and 37-38) is left out. The model starts from the parsed documents. A document of the wrong shape, such as a non-object value or a non-string name, is not modelled.
- Writing the DataFrame to CSV (lines 74-75) is left out, including pandas' index column. The output is the sequence of rows.
- Command-line parsing and default paths (lines 77 onward) are left out.
- Python's set iteration order is unspecified. A listing is therefore stated as the join of some enumeration of the set, never as one particular string.
- The whitespace class of `str.strip()` is a parameter. Python's exact set of Unicode whitespace characters is not written out.
- Study ids are modelled as strings. The spreadsheet may give other hashable values, such as numbers.
- Names are compared as exact strings, as `in` and `startswith` compare them at lines 50-52. There is no Unicode normalisation.
- Two behaviours of the code are easy to misread as something else. The model follows the code:
  - The tiers need not partition the variables. At line 52 the code checks raw Tier-1 membership. So an unprefixed Tier-1 name that is not a Tier-2 name is in no tier (`Tiers.TiersMayMissVariable`), and a name can be in Tier 1 and Tier 2 at once (`Tiers.TiersMayOverlap`).
  - A cell of whitespace only does not give empty tiers: it splits into one piece, which strips to `""`, so the cell contributes the variable `""` (`Variables.Tokens`). An empty cell is read as NaN at line 14, and line 21 then raises AttributeError. That case is not modelled (see the first line of this section).

=== FILE: reference.dfy ===
/**
 The two reference documents, already parsed, and their flattening into
 plain sets of names.
 */
module Reference {

  /** Tier-1 document: category -> (domain variable -> codomain variable). */
  type Tier1Doc = map<string, map<string, string>>

  /** Tier-2 document: category -> list of variable names. */
  type Tier2Doc = map<string, seq<string>>

  /** Every key and every value of every inner mapping. */
  function Tier1Names(doc: Tier1Doc): set<string> {
    set m, n | m in doc.Values && n in m.Keys + m.Values :: n
  }

  /** Every element of every list. */
  function Tier2Names(doc: Tier2Doc): set<string> {
    set l, n | l in doc.Values && n in l :: n
  }

  /**
   Lines 30-34: walk the inner mappings, collecting their keys and values.
   A name is collected iff some category maps it or maps to it.
   */
  method LoadTier1(doc: Tier1Doc) returns (t1: set<string>)
    ensures forall n :: n in t1 <==> exists c :: c in doc && (n in doc[c].Keys || n in doc[c].Values)
    ensures t1 == Tier1Names(doc)
  {
    t1 := {};
    var todo := doc.Keys;
    while todo != {}
      invariant todo <= doc.Keys
      invariant forall n :: n in t1 <==> exists c :: c in doc && c !in todo && (n in doc[c].Keys || n in doc[c].Values)
      decreases todo
    {
      var c :| c in todo;
      t1 := t1 + doc[c].Keys + doc[c].Values;
      todo := todo - {c};
    }
    forall n ensures n in t1 <==> n in Tier1Names(doc) {
      if n in t1 {
        var c :| c in doc && (n in doc[c].Keys || n in doc[c].Values);
        var m := doc[c];
        assert m in doc.Values && n in m.Keys + m.Values;
      }
      if n in Tier1Names(doc) {
        var m :| m in doc.Values && n in m.Keys + m.Values;
        var c :| c in doc && doc[c] == m;
        assert n in doc[c].Keys || n in doc[c].Values;
      }
    }
  }

  /**
   Lines 40-43: concatenate the lists. A name is collected iff it occurs in
   the list of some category.
   */
  method LoadTier2(doc: Tier2Doc) returns (t2: set<string>)
    ensures forall n :: n in t2 <==> exists c :: c in doc && n in doc[c]
    ensures t2 == Tier2Names(doc)
  {
    t2 := {};
    var todo := doc.Keys;
    while todo != {}
      invariant todo <= doc.Keys
      invariant forall n :: n in t2 <==> exists c :: c in doc && c !in todo && n in doc[c]
      decreases todo
    {
      var c :| c in todo;
      t2 := t2 + set n | n in doc[c];
      todo := todo - {c};
    }
    forall n ensures n in t2 <==> n in Tier2Names(doc) {
      if n in t2 {
        var c :| c in doc && n in doc[c];
        assert doc[c] in doc.Values;
      }
      if n in Tier2Names(doc) {
        var l :| l in doc.Values && n in l;
        var c :| c in doc && doc[c] == l;
        assert n in doc[c];
      }
    }
  }
}

=== FILE: report.dfy ===
/**
 Report assembly (count_cdes.py lines 54-71, without writing the CSV): one
 row per study, in first-seen order, with each tier's size and its members
 joined by ", ". Python joins a set in its iteration order, which is not
 specified; here a listing is the join of SOME enumeration of the set.
 */
module Report {
  import Text
  import Variables
  import Reference
  import Tiers

  /** The separator of the listings (line 67). */
  const ListSep: string := ", "

  /** One output row; the fields are the columns of the CSV, in order. */
  datatype ReportRow = ReportRow(
    studyId: string,
    tier1Count: nat, tier1Cdes: string,
    tier2Count: nat, tier2Cdes: string,
    otherCount: nat, otherDes: string)

  /** `xs` lists every member of `s` exactly once, in some order. */
  ghost predicate IsEnumeration(xs: seq<string>, s: set<string>) {
    && (forall i, j :: 0 <= i < j < |xs| ==> xs[i] != xs[j])
    && (forall x :: x in xs <==> x in s)
  }

  /** `text` is the ", "-join of some enumeration of `s`. */
  ghost predicate Lists(text: string, s: set<string>) {
    exists xs :: IsEnumeration(xs, s) && text == Text.Join(xs, ListSep)
  }

  /** An enumeration is exactly as long as the set it enumerates. */
  lemma {:induction false} EnumerationLength(xs: seq<string>, s: set<string>)
    requires IsEnumeration(xs, s)
    ensures |xs| == |s|
    decreases |xs|
  {
    if |xs| > 0 {
      var rest := xs[1..];
      assert IsEnumeration(rest, s - {xs[0]}) by {
        forall x ensures x in rest <==> x in s - {xs[0]} {
          if x in rest {
            var j :| 0 <= j < |rest| && rest[j] == x;
            assert xs[j + 1] == x;
          }
          if x in s - {xs[0]} {
            assert x in xs;
            var j :| 0 <= j < |xs| && xs[j] == x;
            assert rest[j - 1] == x;
          }
        }
      }
      EnumerationLength(rest, s - {xs[0]});
    }
  }

  /** Iterate over a set in an unspecified order, as Python's set iteration does. */
  method Enumerate(s: set<string>) returns (xs: seq<string>)
    ensures IsEnumeration(xs, s)
    ensures |xs| == |s|
  {
    xs := [];
    var rest := s;
    while rest != {}
      invariant rest <= s
      invariant forall i, j :: 0 <= i < j < |xs| ==> xs[i] != xs[j]
      invariant forall x :: x in xs <==> x in s - rest
      invariant |xs| + |rest| == |s|
      decreases rest
    {
      var x :| x in rest;
      assert x !in xs;
      xs := xs + [x];
      rest := rest - {x};
    }
  }

  /** The empty set lists as the empty string. */
  lemma EmptyListing(text: string)
    requires Lists(text, {})
    ensures text == ""
  {
    var xs :| IsEnumeration(xs, {}) && text == Text.Join(xs, ListSep);
    EnumerationLength(xs, {});
  }

  /**
   Splitting a listing of a non-empty set of comma-free names on ", " gives
   back each member exactly once: as many pieces as members, and the same
   members.
   */
  lemma ListingRoundTrip(text: string, s: set<string>)
    requires Lists(text, s) && s != {}
    requires forall v :: v in s ==> ',' !in v
    ensures |Text.Split(text, ListSep)| == |s|
    ensures forall p :: p in Text.Split(text, ListSep) <==> p in s
  {
    var xs :| IsEnumeration(xs, s) && text == Text.Join(xs, ListSep);
    var v :| v in s;
    assert v in xs;
    Text.SplitOfJoin(xs, ListSep);
    EnumerationLength(xs, s);
  }

  /** `row` reports study `id` with tiers `t`: counts are sizes, listings list the sets. */
  ghost predicate Reports(row: ReportRow, id: string, t: Tiers.Classification) {
    && row.studyId == id
    && row.tier1Count == |t.tier1| && Lists(row.tier1Cdes, t.tier1)
    && row.tier2Count == |t.tier2| && Lists(row.tier2Cdes, t.tier2)
    && row.otherCount == |t.other| && Lists(row.otherDes, t.other)
  }

  /** The listing of `s` splits back to `s`, or is empty when `s` is. */
  ghost predicate SplitsBack(text: string, s: set<string>) {
    && (s == {} ==> text == "")
    && (s != {} ==> |Text.Split(text, ListSep)| == |s| && forall p :: p in Text.Split(text, ListSep) <==> p in s)
  }

  /** Lines 65-71: one output row for one study. */
  method AssembleRow(id: string, t: Tiers.Classification) returns (row: ReportRow)
    ensures Reports(row, id, t)
  {
    var l1 := Enumerate(t.tier1);
    var l2 := Enumerate(t.tier2);
    var l3 := Enumerate(t.other);
    row := ReportRow(
      id,
      |t.tier1|, Text.Join(l1, ListSep),
      |t.tier2|, Text.Join(l2, ListSep),
      |t.other|, Text.Join(l3, ListSep));
  }

  /** Every listing of a set of comma-free names splits back into the set, or is empty when the set is. */
  lemma ListingSplitsBack(text: string, s: set<string>)
    requires Lists(text, s)
    requires forall v :: v in s ==> ',' !in v
    ensures SplitsBack(text, s)
  {
    if s == {} {
      EmptyListing(text);
    } else {
      ListingRoundTrip(text, s);
    }
  }

  /** The tiers computed for study `id` of `rows`. */
  ghost function StudyTiers(rows: seq<Variables.Row>, ws: set<char>, t1: Reference.Tier1Doc,
                            t2: Reference.Tier2Doc, id: string): Tiers.Classification
    requires id in Variables.Extract(rows, ws).vars
  {
    Tiers.Classify(Variables.Extract(rows, ws).vars[id], Reference.Tier1Names(t1), Reference.Tier2Names(t2))
  }

  /** `row` reports study `id` with tiers `t`, and each of its listings splits back. */
  ghost predicate ReportsAndSplits(row: ReportRow, id: string, t: Tiers.Classification) {
    && Reports(row, id, t)
    && SplitsBack(row.tier1Cdes, t.tier1)
    && SplitsBack(row.tier2Cdes, t.tier2)
    && SplitsBack(row.otherDes, t.other)
  }

  /**
   Lines 64-71 on studies already extracted and reference sets already
   loaded: one row per study, in the order of `studies.order`.
   */
  method ReportStudies(studies: Variables.Studies, t1: set<string>, t2: set<string>)
    returns (report: seq<ReportRow>)
    requires Variables.Valid(studies)
    requires forall id, v :: id in studies.vars && v in studies.vars[id] ==> ',' !in v
    ensures |report| == |studies.order|
    ensures forall k :: 0 <= k < |report| ==>
              studies.order[k] in studies.vars &&
              ReportsAndSplits(report[k], studies.order[k], Tiers.Classify(studies.vars[studies.order[k]], t1, t2))
  {
    report := [];
    var k := 0;
    while k < |studies.order|
      invariant k <= |studies.order|
      invariant |report| == k
      invariant forall j :: 0 <= j < k ==>
                  studies.order[j] in studies.vars &&
                  ReportsAndSplits(report[j], studies.order[j], Tiers.Classify(studies.vars[studies.order[j]], t1, t2))
    {
      var id := studies.order[k];
      var t := Tiers.Classify(studies.vars[id], t1, t2);
      var row := AssembleRow(id, t);
      ListingSplitsBack(row.tier1Cdes, t.tier1);
      ListingSplitsBack(row.tier2Cdes, t.tier2);
      ListingSplitsBack(row.otherDes, t.other);
      report := report + [row];
      k := k + 1;
    }
  }

  /**
   Lines 17-71: the whole report. One row per study, in the order studies
   were first seen; each row reports the study's tiers, and every listing
   splits back into exactly its tier.
   */
  method CountCdes(rows: seq<Variables.Row>, tier1Doc: Reference.Tier1Doc, tier2Doc: Reference.Tier2Doc,
                   ws: set<char>)
    returns (report: seq<ReportRow>)
    ensures |report| == |Variables.Extract(rows, ws).order|
    ensures forall k :: 0 <= k < |report| ==>
              var id := Variables.Extract(rows, ws).order[k];
              id in Variables.Extract(rows, ws).vars &&
              ReportsAndSplits(report[k], id, StudyTiers(rows, ws, tier1Doc, tier2Doc, id))
  {
    var studies := Variables.Extract(rows, ws);
    Variables.ExtractValid(rows, ws);
    Variables.ExtractWellFormed(rows, ws);
    var t1 := Reference.LoadTier1(tier1Doc);
    var t2 := Reference.LoadTier2(tier2Doc);
    report := ReportStudies(studies, t1, t2);
  }
}

=== FILE: text.dfy ===
/**
 Text operations the counter relies on, with the semantics of Python's
 `str.split(sep)`, `str.strip()`, `sep.join(...)` and `str.startswith(...)`.
 The whitespace class of `strip()` is a parameter `ws` throughout.
 */
module Text {

  /** `s` begins with `prefix` (Python's `s.startswith(prefix)`). */
  predicate StartsWith(s: string, prefix: string) {
    |prefix| <= |s| && s[..|prefix|] == prefix
  }

  /** `sep` occurs in `s` starting at index `j`. */
  predicate OccursAt(s: string, sep: string, j: nat) {
    j + |sep| <= |s| && s[j..j + |sep|] == sep
  }

  /** `sep` occurs somewhere in `s` (Python's `sep in s`). */
  ghost predicate Contains(s: string, sep: string) {
    exists j: nat :: OccursAt(s, sep, j)
  }

  /** Every character of `s` is whitespace. */
  predicate AllWhitespace(s: string, ws: set<char>) {
    forall k :: 0 <= k < |s| ==> s[k] in ws
  }

  /** Dropping the first character shifts every occurrence one place left. */
  lemma OccursAtTail(s: string, sep: string, j: nat)
    requires |s| > 0
    ensures OccursAt(s, sep, j + 1) <==> OccursAt(s[1..], sep, j)
  {
    if j + 1 + |sep| <= |s| {
      assert s[j + 1..j + 1 + |sep|] == s[1..][j..j + |sep|];
    }
  }

  /** An occurrence inside a prefix of `s` is an occurrence in `s`. */
  lemma OccursAtPrefix(s: string, n: nat, sep: string, j: nat)
    requires n <= |s|
    requires OccursAt(s[..n], sep, j)
    ensures OccursAt(s, sep, j)
  {
    assert s[..n][j..j + |sep|] == s[j..j + |sep|];
  }

  /** The index of the first occurrence of `sep` in `s`, or `|s|` when there is none. */
  function FirstOccurrence(s: string, sep: string): (i: nat)
    requires |sep| > 0
    ensures i <= |s|
    ensures i < |s| ==> OccursAt(s, sep, i)
    ensures forall j: nat :: j < i ==> !OccursAt(s, sep, j)
    decreases |s|
  {
    if |s| == 0 then 0
    else if OccursAt(s, sep, 0) then 0
    else
      var i' := FirstOccurrence(s[1..], sep);
      assert forall j: nat :: j < i' + 1 ==> !OccursAt(s, sep, j) by {
        forall j: nat | j < i' + 1
          ensures !OccursAt(s, sep, j)
        {
          if j > 0 {
            OccursAtTail(s, sep, j - 1);
          }
        }
      }
      assert i' < |s[1..]| ==> OccursAt(s, sep, i' + 1) by {
        OccursAtTail(s, sep, i');
      }
      1 + i'
  }

  /** `sep.join(pieces)`; `JoinEnds` states what it begins and ends with. */
  function Join(pieces: seq<string>, sep: string): string
    decreases |pieces|
  {
    if |pieces| == 0 then ""
    else if |pieces| == 1 then pieces[0]
    else pieces[0] + sep + Join(pieces[1..], sep)
  }

  /**
   A join is empty for no pieces; otherwise it begins with the first piece
   and ends with the last.
   */
  lemma {:induction false} JoinEnds(pieces: seq<string>, sep: string)
    ensures |pieces| == 0 ==> Join(pieces, sep) == ""
    ensures |pieces| > 0 ==> StartsWith(Join(pieces, sep), pieces[0])
    ensures |pieces| > 0 ==> var r, last := Join(pieces, sep), pieces[|pieces| - 1];
      |last| <= |r| && r[|r| - |last|..] == last
    decreases |pieces|
  {
    if |pieces| > 1 {
      var tail := Join(pieces[1..], sep);
      var r := pieces[0] + sep + tail;
      JoinEnds(pieces[1..], sep);
      assert r[..|pieces[0]|] == pieces[0];
      assert r[|r| - |tail|..] == tail;
    }
  }

  /** Joining a piece in front of a non-empty sequence puts the separator between. */
  lemma JoinCons(head: string, rest: seq<string>, sep: string)
    requires |rest| >= 1
    ensures Join([head] + rest, sep) == head + sep + Join(rest, sep)
  {
    assert ([head] + rest)[1..] == rest;
  }

  /** No occurrence starts before `i`, so the text before `i` contains none. */
  lemma NoneBefore(s: string, sep: string, i: nat)
    requires |sep| > 0 && i <= |s|
    requires forall j: nat :: j < i ==> !OccursAt(s, sep, j)
    ensures !Contains(s[..i], sep)
  {
    forall j: nat | OccursAt(s[..i], sep, j)
      ensures false
    {
      OccursAtPrefix(s, i, sep, j);
    }
  }

  /** An occurrence at `i` cuts `s` into the text before it, `sep`, and the rest. */
  lemma CutAt(s: string, sep: string, i: nat)
    requires OccursAt(s, sep, i)
    ensures s == s[..i] + sep + s[i + |sep|..]
  {
    assert s[i..i + |sep|] == sep;
    assert s == s[..i] + s[i..i + |sep|] + s[i + |sep|..];
  }

  /**
   `s.split(sep)` for a non-empty separator: the text between successive
   non-overlapping occurrences of `sep`, scanning left to right. The pieces
   are never empty as a sequence, join back to `s`, and contain no `sep`.
   */
  function Split(s: string, sep: string): (pieces: seq<string>)
    requires |sep| > 0
    ensures |pieces| >= 1
    ensures Join(pieces, sep) == s
    ensures forall k :: 0 <= k < |pieces| ==> !Contains(pieces[k], sep)
    decreases |s|
  {
    var i := FirstOccurrence(s, sep);
    NoneBefore(s, sep, i);
    if i == |s| then
      assert s[..i] == s;
      [s]
    else
      var rest := Split(s[i + |sep|..], sep);
      CutAt(s, sep, i);
      JoinCons(s[..i], rest, sep);
      [s[..i]] + rest
  }

  /** A separator whose first character is absent from `p` never occurs in `p`. */
  lemma NoOccurrenceWithoutFirstChar(p: string, sep: string, j: nat)
    requires |sep| > 0 && sep[0] !in p
    ensures !OccursAt(p, sep, j)
  {
  }

  /** Nor does it start inside `p` when `p` is followed by more text. */
  lemma NoOccurrenceInHead(p: string, sep: string, tail: string, j: nat)
    requires |sep| > 0 && sep[0] !in p && j < |p|
    ensures !OccursAt(p + tail, sep, j)
  {
    assert (p + tail)[j] == p[j];
  }

  /** Splitting a text without the separator's first character gives the text alone. */
  lemma SplitWithoutSep(p: string, sep: string)
    requires |sep| > 0 && sep[0] !in p
    ensures Split(p, sep) == [p]
  {
    var i := FirstOccurrence(p, sep);
    forall j: nat ensures !OccursAt(p, sep, j) {
      NoOccurrenceWithoutFirstChar(p, sep, j);
    }
    assert i == |p|;
  }

  /** The first separator after a separator-free head ends the first piece. */
  lemma SplitAfterHead(p: string, sep: string, tail: string)
    requires |sep| > 0 && sep[0] !in p
    ensures Split(p + sep + tail, sep) == [p] + Split(tail, sep)
  {
    var s := p + sep + tail;
    assert s == p + (sep + tail);
    forall j: nat | j < |p| ensures !OccursAt(s, sep, j) {
      NoOccurrenceInHead(p, sep, sep + tail, j);
    }
    assert OccursAt(s, sep, |p|) by {
      assert s[|p|..|p| + |sep|] == sep;
    }
    var i := FirstOccurrence(s, sep);
    assert i == |p|;
    assert s[..i] == p;
    assert s[i + |sep|..] == tail;
  }

  /** A one-character separator occurs in `p` exactly when that character does. */
  lemma ContainsChar(p: string, c: char)
    ensures Contains(p, [c]) <==> c in p
  {
    if c in p {
      var j :| 0 <= j < |p| && p[j] == c;
      assert OccursAt(p, [c], j);
    }
    if Contains(p, [c]) {
      var j: nat :| OccursAt(p, [c], j);
      assert p[j] == p[j..j + 1][0];
    }
  }

  /**
   Splitting a join gives back the pieces, provided no piece contains the
   first character of the separator.
   */
  lemma {:induction false} SplitOfJoin(pieces: seq<string>, sep: string)
    requires |sep| > 0 && |pieces| >= 1
    requires forall k :: 0 <= k < |pieces| ==> sep[0] !in pieces[k]
    ensures Split(Join(pieces, sep), sep) == pieces
    decreases |pieces|
  {
    if |pieces| == 1 {
      SplitWithoutSep(pieces[0], sep);
    } else {
      var tail := Join(pieces[1..], sep);
      assert Join(pieces, sep) == pieces[0] + sep + tail;
      SplitAfterHead(pieces[0], sep, tail);
      SplitOfJoin(pieces[1..], sep);
      assert pieces == [pieces[0]] + pieces[1..];
    }
  }

  /** `s.lstrip()`: the suffix left after dropping leading whitespace. */
  function TrimStart(s: string, ws: set<char>): (r: string)
    ensures |r| <= |s| && r == s[|s| - |r|..]
    ensures AllWhitespace(s[..|s| - |r|], ws)
    ensures r != [] ==> r[0] !in ws
    decreases |s|
  {
    if |s| > 0 && s[0] in ws then
      var r := TrimStart(s[1..], ws);
      assert s[..|s| - |r|] == [s[0]] + s[1..][..|s[1..]| - |r|];
      r
    else s
  }

  /** `s.rstrip()`: the prefix left after dropping trailing whitespace. */
  function TrimEnd(s: string, ws: set<char>): (r: string)
    ensures |r| <= |s| && r == s[..|r|]
    ensures AllWhitespace(s[|r|..], ws)
    ensures r != [] ==> r[|r| - 1] !in ws
    decreases |s|
  {
    if |s| > 0 && s[|s| - 1] in ws then
      var r := TrimEnd(s[..|s| - 1], ws);
      assert s[|r|..] == s[..|s| - 1][|r|..] + [s[|s| - 1]];
      r
    else s
  }

  /**
   `s.strip()`: the part of `s` left after dropping leading and trailing
   whitespace; it neither begins nor ends with whitespace. `StripSlice`
   and `StripCharacterization` pin it down.
   */
  function Strip(s: string, ws: set<char>): (r: string)
    ensures |r| <= |s|
    ensures r != [] ==> r[0] !in ws && r[|r| - 1] !in ws
  {
    TrimEnd(TrimStart(s, ws), ws)
  }

  /** `Strip(s)` sits in `s` between two runs of whitespace. */
  lemma StripSlice(s: string, ws: set<char>) returns (lead: nat)
    ensures var r := Strip(s, ws);
      && lead + |r| <= |s|
      && s[lead..lead + |r|] == r
      && AllWhitespace(s[..lead], ws)
      && AllWhitespace(s[lead + |r|..], ws)
  {
    var t := TrimStart(s, ws);
    var r := TrimEnd(t, ws);
    lead := |s| - |t|;
    assert r == Strip(s, ws);
    assert t == s[lead..] && AllWhitespace(s[..lead], ws);
    assert r == t[..|r|] && AllWhitespace(t[|r|..], ws);
    SliceOfSuffix(s, lead, |r|);
  }

  /** Slicing a suffix of `s` is slicing `s` itself, shifted. */
  lemma SliceOfSuffix(s: string, lead: nat, n: nat)
    requires lead + n <= |s|
    ensures s[lead..][..n] == s[lead..lead + n]
    ensures s[lead..][n..] == s[lead + n..]
  {
  }

  /** Stripping adds no character: one absent from `s` is absent from `Strip(s)`. */
  lemma StripAddsNoChar(s: string, ws: set<char>, c: char)
    requires c !in s
    ensures c !in Strip(s, ws)
  {
    var r := Strip(s, ws);
    var lead := StripSlice(s, ws);
    forall k | 0 <= k < |r| ensures r[k] != c {
      assert r[k] == s[lead + k];
    }
  }

  /** Dropping exactly a whitespace prefix that ends before a non-whitespace character is `TrimStart`. */
  lemma {:induction false} TrimStartUnique(s: string, n: nat, ws: set<char>)
    requires n <= |s| && AllWhitespace(s[..n], ws)
    requires n < |s| ==> s[n] !in ws
    ensures TrimStart(s, ws) == s[n..]
    decreases n
  {
    if n > 0 {
      assert s[0] in ws by { assert s[..n][0] == s[0]; }
      assert s[1..][..n - 1] == s[..n][1..];
      TrimStartUnique(s[1..], n - 1, ws);
      assert s[1..][n - 1..] == s[n..];
    }
  }

  /** Keeping exactly a prefix followed by whitespace and ending in a non-whitespace character is `TrimEnd`. */
  lemma {:induction false} TrimEndUnique(s: string, n: nat, ws: set<char>)
    requires n <= |s| && AllWhitespace(s[n..], ws)
    requires n > 0 ==> s[n - 1] !in ws
    ensures TrimEnd(s, ws) == s[..n]
    decreases |s| - n
  {
    if n < |s| {
      assert s[|s| - 1] in ws by { assert s[n..][|s| - 1 - n] == s[|s| - 1]; }
      var s' := s[..|s| - 1];
      assert s'[n..] == s[n..][..|s| - 1 - n];
      TrimEndUnique(s', n, ws);
      assert s'[..n] == s[..n];
    }
  }

  /**
   `Strip` is determined by its contract: whenever `s` is whitespace, then
   `r`, then whitespace, and `r` neither begins nor ends with whitespace,
   stripping `s` yields exactly `r`.
   */
  lemma StripCharacterization(s: string, lead: string, r: string, trail: string, ws: set<char>)
    requires s == lead + r + trail
    requires AllWhitespace(lead, ws) && AllWhitespace(trail, ws)
    requires r != [] ==> r[0] !in ws && r[|r| - 1] !in ws
    ensures Strip(s, ws) == r
  {
    if r == [] {
      assert AllWhitespace(s, ws) by {
        forall k | 0 <= k < |s| ensures s[k] in ws {
          if k < |lead| { assert s[k] == lead[k]; } else { assert s[k] == trail[k - |lead|]; }
        }
      }
      TrimStartUnique(s, |s|, ws);
      assert s[|s|..] == [];
    } else {
      assert s[..|lead|] == lead;
      assert s[|lead|] == r[0];
      TrimStartUnique(s, |lead|, ws);
      var t := s[|lead|..];
      assert t == r + trail;
      assert t[|r|..] == trail;
      assert t[|r| - 1] == r[|r| - 1];
      TrimEndUnique(t, |r|, ws);
      assert t[..|r|] == r;
    }
  }

  /** Stripping twice is stripping once. */
  lemma StripIdempotent(s: string, ws: set<char>)
    ensures Strip(Strip(s, ws), ws) == Strip(s, ws)
  {
    StripUnchanged(Strip(s, ws), ws);
  }

  /** A text with no whitespace at either end strips to itself. */
  lemma StripUnchanged(r: string, ws: set<char>)
    requires r != [] ==> r[0] !in ws && r[|r| - 1] !in ws
    ensures Strip(r, ws) == r
  {
    assert r == [] + r + [];
    StripCharacterization(r, [], r, [], ws);
  }
}

=== FILE: tiers.dfy ===
/**
 Tier classification of one study's variables (count_cdes.py lines 46-52).
 The three tiers are computed by three independent tests over the whole
 variable set, not by an if/elif chain: the Other test uses raw Tier-1
 membership, without the `nih_` prefix filter the Tier-1 test applies.
 */
module Tiers {
  import Text

  /** The study-side naming convention a Tier-1 hit must carry. */
  const NihPrefix: string := "nih_"

  /** The three tier sets of one study. */
  datatype Classification = Classification(tier1: set<string>, tier2: set<string>, other: set<string>)

  /**
   Lines 50-52. Tier 1: in `t1` and prefixed `nih_`; Tier 2: in `t2`;
   Other: in neither reference set.
   */
  function Classify(vars: set<string>, t1: set<string>, t2: set<string>): (r: Classification)
    ensures r.tier1 <= vars && r.tier2 <= vars && r.other <= vars
    ensures forall v :: v in r.tier1 <==> v in vars && v in t1 && Text.StartsWith(v, NihPrefix)
    ensures r.tier2 == vars * t2
    ensures r.other == vars - t1 - t2
    ensures r.other !! r.tier1 && r.other !! r.tier2
    ensures t1 !! t2 ==> r.tier1 !! r.tier2
  {
    Classification(
      set v | v in vars && v in t1 && Text.StartsWith(v, NihPrefix),
      set v | v in vars && v in t2,
      set v | v in vars && v !in t1 && v !in t2)
  }

  /**
   A Tier-1 name without the prefix is never Tier 1 and never Other: it is
   Tier 2 when it is also a Tier-2 name, and in no tier otherwise.
   */
  lemma UnprefixedTier1Name(vars: set<string>, t1: set<string>, t2: set<string>, v: string)
    requires v in vars && v in t1 && !Text.StartsWith(v, NihPrefix)
    ensures v !in Classify(vars, t1, t2).tier1 && v !in Classify(vars, t1, t2).other
    ensures v in Classify(vars, t1, t2).tier2 <==> v in t2
  {
  }

  /**
   The tiers cover the study's variables exactly when every variable that
   is a Tier-1 name but not a Tier-2 name carries the prefix.
   */
  lemma Coverage(vars: set<string>, t1: set<string>, t2: set<string>)
    ensures var r := Classify(vars, t1, t2);
      r.tier1 + r.tier2 + r.other == vars <==>
      forall v :: v in vars && v in t1 && v !in t2 ==> Text.StartsWith(v, NihPrefix)
  {
    var r := Classify(vars, t1, t2);
    if r.tier1 + r.tier2 + r.other == vars {
      forall v | v in vars && v in t1 && v !in t2 ensures Text.StartsWith(v, NihPrefix) {
        assert v in r.tier1 + r.tier2 + r.other;
      }
    }
  }

  /**
   With disjoint reference sets the three counts never exceed the number of
   variables, and add up to it when the tiers cover the variables.
   */
  lemma {:induction false} CountsBound(vars: set<string>, t1: set<string>, t2: set<string>)
    requires t1 !! t2
    ensures var r := Classify(vars, t1, t2);
      |r.tier1| + |r.tier2| + |r.other| <= |vars|
    ensures var r := Classify(vars, t1, t2);
      r.tier1 + r.tier2 + r.other == vars ==> |r.tier1| + |r.tier2| + |r.other| == |vars|
  {
    var r := Classify(vars, t1, t2);
    var u := r.tier1 + r.tier2 + r.other;
    assert |r.tier1 + r.tier2| == |r.tier1| + |r.tier2|;
    assert |u| == |r.tier1 + r.tier2| + |r.other|;
    assert u <= vars;
    SubsetCardinality(u, vars);
  }

  /** A subset is no larger than its superset. */
  lemma SubsetCardinality(a: set<string>, b: set<string>)
    requires a <= b
    ensures |a| <= |b|
  {
    assert b == a + (b - a);
  }

  /** A prefixed name in both reference sets is counted in Tier 1 and in Tier 2. */
  lemma TiersMayOverlap(vars: set<string>, t1: set<string>, t2: set<string>, v: string)
    requires v in vars && v in t1 && v in t2 && Text.StartsWith(v, NihPrefix)
    ensures v in Classify(vars, t1, t2).tier1 && v in Classify(vars, t1, t2).tier2
  {
  }

  /**
   A Tier-1 name without the prefix that is no Tier-2 name falls into no
   tier, so the tiers need not cover the variables.
   */
  lemma TiersMayMissVariable(vars: set<string>, t1: set<string>, t2: set<string>, v: string)
    requires v in vars && v in t1 && v !in t2 && !Text.StartsWith(v, NihPrefix)
    ensures var r := Classify(vars, t1, t2);
      v !in r.tier1 + r.tier2 + r.other
  {
  }

  /** For example, `nih_a` in both reference sets lands in Tier 1 and Tier 2. */
  lemma OverlapExample()
    ensures var r := Classify({"nih_a"}, {"nih_a"}, {"nih_a"});
      r.tier1 == {"nih_a"} && r.tier2 == {"nih_a"} && r.other == {}
  {
    var r := Classify({"nih_a"}, {"nih_a"}, {"nih_a"});
    assert Text.StartsWith("nih_a", NihPrefix);
    assert "nih_a" in r.tier1;
  }

  /** For example, the Tier-1 name `x`, in no Tier-2 list, lands in no tier. */
  lemma MissExample()
    ensures var r := Classify({"x"}, {"x"}, {});
      r.tier1 == {} && r.tier2 == {} && r.other == {}
  {
    var r := Classify({"x"}, {"x"}, {});
    assert !Text.StartsWith("x", NihPrefix);
    assert "x" !in r.tier1;
  }

  /** One study with variables `nih_x`, `y`, `z`; Tier-1 names `{nih_x}`, Tier-2 names `{y}`. */
  lemma ClassifyExample()
    ensures Classify({"nih_x", "y", "z"}, {"nih_x"}, {"y"}) == Classification({"nih_x"}, {"y"}, {"z"})
  {
    var r := Classify({"nih_x", "y", "z"}, {"nih_x"}, {"y"});
    assert Text.StartsWith("nih_x", NihPrefix);
    assert !Text.StartsWith("y", NihPrefix);
    assert !Text.StartsWith("z", NihPrefix);
    assert r.tier1 == {"nih_x"};
  }
}

=== FILE: variables.dfy ===
/**
 Variable extraction: each spreadsheet row names a study and carries a
 comma-separated variable list; the rows are folded, in order, into one
 variable set per study plus the order in which study ids were first seen
 (the insertion order of the Python dict keyed by study id).
 */
module Variables {
  import Text

  /** One spreadsheet row: the "dbGaP ID" cell and the "Variables" cell. */
  datatype Row = Row(studyId: string, text: string)

  /**
   The per-study accumulator: `order` lists the study ids in first-seen
   order and `vars` maps each of them to its variable set.
   */
  datatype Studies = Studies(order: seq<string>, vars: map<string, set<string>>)

  /** The ids in `order` are distinct and are exactly the keys of `vars`. */
  ghost predicate Valid(st: Studies) {
    && (forall a, b :: 0 <= a < b < |st.order| ==> st.order[a] != st.order[b])
    && (forall id :: id in st.vars <==> id in st.order)
  }

  /** A variable as the extractor produces it: no comma, no surrounding whitespace. */
  predicate IsVariable(v: string, ws: set<char>) {
    && ',' !in v
    && (v != [] ==> v[0] !in ws && v[|v| - 1] !in ws)
  }

  /**
   The variables of one row: `text.split(",")`, each piece stripped. Every
   piece contributes, so the set is never empty (a text of whitespace only
   gives `{""}`).
   */
  function Tokens(text: string, ws: set<char>): (vars: set<string>)
    ensures vars != {}
    ensures forall v :: v in vars ==> IsVariable(v, ws)
  {
    var pieces := Text.Split(text, ",");
    StrippedPiecesWellFormed(pieces, ws);
    StrippedPieces(pieces, ws)
  }

  /** The set of the pieces, each stripped. */
  function StrippedPieces(pieces: seq<string>, ws: set<char>): set<string> {
    set k | 0 <= k < |pieces| :: Text.Strip(pieces[k], ws)
  }

  /** Stripping comma-free pieces yields well-formed variables, at least one when there is a piece. */
  lemma StrippedPiecesWellFormed(pieces: seq<string>, ws: set<char>)
    requires forall k :: 0 <= k < |pieces| ==> !Text.Contains(pieces[k], ",")
    ensures |pieces| > 0 ==> StrippedPieces(pieces, ws) != {}
    ensures forall v :: v in StrippedPieces(pieces, ws) ==> IsVariable(v, ws)
  {
    if |pieces| > 0 {
      assert Text.Strip(pieces[0], ws) in StrippedPieces(pieces, ws);
    }
    forall v | v in StrippedPieces(pieces, ws) ensures IsVariable(v, ws) {
      var k :| 0 <= k < |pieces| && v == Text.Strip(pieces[k], ws);
      Text.ContainsChar(pieces[k], ',');
      Text.StripAddsNoChar(pieces[k], ws, ',');
    }
  }

  /** The variables are exactly the stripped comma-separated pieces of the text. */
  lemma TokensArePieces(text: string, ws: set<char>, v: string)
    ensures v in Tokens(text, ws) <==>
      exists k :: 0 <= k < |Text.Split(text, ",")| && v == Text.Strip(Text.Split(text, ",")[k], ws)
  {
    assert Tokens(text, ws) == StrippedPieces(Text.Split(text, ","), ws);
    InStrippedPieces(Text.Split(text, ","), ws, v);
  }

  /** A name is in `StrippedPieces` iff some piece strips to it. */
  lemma InStrippedPieces(pieces: seq<string>, ws: set<char>, v: string)
    ensures v in StrippedPieces(pieces, ws) <==> exists k :: 0 <= k < |pieces| && v == Text.Strip(pieces[k], ws)
  {
    if exists k :: 0 <= k < |pieces| && v == Text.Strip(pieces[k], ws) {
      var k :| 0 <= k < |pieces| && v == Text.Strip(pieces[k], ws);
      assert v in StrippedPieces(pieces, ws);
    }
  }

  /**
   Extraction inverts joining with ",": the variables of a comma-joined list
   of well-formed variables are exactly the listed ones.
   */
  lemma TokensOfJoin(vs: seq<string>, ws: set<char>)
    requires |vs| >= 1
    requires forall k :: 0 <= k < |vs| ==> IsVariable(vs[k], ws)
    ensures Tokens(Text.Join(vs, ","), ws) == set k | 0 <= k < |vs| :: vs[k]
  {
    Text.SplitOfJoin(vs, ",");
    StripPiecesUnchanged(vs, ws);
  }

  /** Stripping a sequence of well-formed variables leaves each of them as it is. */
  lemma StripPiecesUnchanged(vs: seq<string>, ws: set<char>)
    requires forall k :: 0 <= k < |vs| ==> IsVariable(vs[k], ws)
    ensures StrippedPieces(vs, ws) == set k | 0 <= k < |vs| :: vs[k]
  {
    forall k | 0 <= k < |vs| ensures Text.Strip(vs[k], ws) == vs[k] {
      StripVariable(vs[k], ws);
    }
  }

  /** A row after extraction: its study id and the variables its text names. */
  datatype Entry = Entry(studyId: string, vars: set<string>)

  /** Line 21 applied to every row. */
  function Parse(rows: seq<Row>, ws: set<char>): (entries: seq<Entry>)
    ensures |entries| == |rows|
    ensures forall i :: 0 <= i < |rows| ==>
              entries[i].studyId == rows[i].studyId && entries[i].vars == Tokens(rows[i].text, ws)
  {
    seq(|rows|, i requires 0 <= i < |rows| => Entry(rows[i].studyId, Tokens(rows[i].text, ws)))
  }

  /** Lines 22-24: fold one row's variables into the accumulator. */
  function AddEntry(st: Studies, e: Entry): (r: Studies)
    ensures Valid(st) ==> Valid(r)
    ensures r.vars.Keys == st.vars.Keys + {e.studyId}
    ensures forall v :: v in r.vars[e.studyId] <==> v in e.vars || (e.studyId in st.vars && v in st.vars[e.studyId])
    ensures forall id :: id in st.vars && id != e.studyId ==> r.vars[id] == st.vars[id]
    ensures e.studyId in st.vars ==> r.order == st.order
    ensures e.studyId !in st.vars ==> r.order == st.order + [e.studyId]
  {
    var id := e.studyId;
    if id in st.vars then
      Studies(st.order, st.vars[id := st.vars[id] + e.vars])
    else
      Studies(st.order + [id], st.vars[id := e.vars])
  }

  /** The index of the first entry carrying `id`, or `|es|` when none does. */
  function FirstIndex(es: seq<Entry>, id: string): (i: nat)
    ensures i <= |es|
    ensures i < |es| ==> es[i].studyId == id
    ensures forall j :: 0 <= j < i ==> es[j].studyId != id
    decreases |es|
  {
    if |es| == 0 then 0
    else if es[0].studyId == id then 0
    else 1 + FirstIndex(es[1..], id)
  }

  /** Appending an entry leaves every earlier first occurrence where it was. */
  lemma {:induction false} FirstIndexAppend(es: seq<Entry>, e: Entry, id: string)
    ensures FirstIndex(es + [e], id) ==
      if FirstIndex(es, id) < |es| then FirstIndex(es, id)
      else if e.studyId == id then |es| else |es| + 1
    decreases |es|
  {
    if |es| > 0 {
      assert (es + [e])[1..] == es[1..] + [e];
      FirstIndexAppend(es[1..], e, id);
    }
  }

  /** Some entry carries study id `id`. */
  ghost predicate Mentions(es: seq<Entry>, id: string) {
    exists i :: 0 <= i < |es| && es[i].studyId == id
  }

  /** Some entry contributes `v` to study `id`. */
  ghost predicate Contributes(es: seq<Entry>, id: string, v: string) {
    exists i :: 0 <= i < |es| && es[i].studyId == id && v in es[i].vars
  }

  lemma MentionsAppend(es: seq<Entry>, e: Entry, id: string)
    ensures Mentions(es + [e], id) <==> Mentions(es, id) || e.studyId == id
  {
    var es' := es + [e];
    if Mentions(es', id) && e.studyId != id {
      var i :| 0 <= i < |es'| && es'[i].studyId == id;
      assert es[i] == es'[i];
    }
    if Mentions(es, id) {
      var i :| 0 <= i < |es| && es[i].studyId == id;
      assert es'[i] == es[i];
    }
    assert es'[|es|] == e;
  }

  lemma ContributesAppend(es: seq<Entry>, e: Entry, id: string, v: string)
    ensures Contributes(es + [e], id, v) <==> Contributes(es, id, v) || (e.studyId == id && v in e.vars)
  {
    var es' := es + [e];
    if Contributes(es', id, v) {
      var i :| 0 <= i < |es'| && es'[i].studyId == id && v in es'[i].vars;
      if i < |es| {
        assert es[i] == es'[i];
      }
    }
    if Contributes(es, id, v) {
      var i :| 0 <= i < |es| && es[i].studyId == id && v in es[i].vars;
      assert es'[i] == es[i];
    }
    assert es'[|es|] == e;
  }

  /** A study id the entries mention has its first occurrence inside them. */
  lemma FirstIndexOfMentioned(es: seq<Entry>, id: string)
    ensures Mentions(es, id) <==> FirstIndex(es, id) < |es|
  {
  }

  /**
   Lines 17-24: fold the entries, in order, into the accumulator.
   `AccumulateValid`, `AccumulateKeys`, `AccumulateVars` and
   `AccumulateOrder` say what it holds.
   */
  function Accumulate(es: seq<Entry>): Studies
    decreases |es|
  {
    if |es| == 0 then Studies([], map[])
    else AddEntry(Accumulate(es[..|es| - 1]), es[|es| - 1])
  }

  /** Each entry adds at most one study. */
  lemma {:induction false} AccumulateSize(es: seq<Entry>)
    ensures |Accumulate(es).order| <= |es|
    decreases |es|
  {
    if |es| > 0 {
      AccumulateSize(es[..|es| - 1]);
    }
  }

  /** The accumulator stays well formed: every study id is listed once, and only those. */
  lemma {:induction false} AccumulateValid(es: seq<Entry>)
    ensures Valid(Accumulate(es))
    decreases |es|
  {
    if |es| > 0 {
      AccumulateValid(es[..|es| - 1]);
    }
  }

  /** The studies are exactly the ids some entry carries. */
  lemma {:induction false} AccumulateKeys(es: seq<Entry>, id: string)
    ensures id in Accumulate(es).vars <==> Mentions(es, id)
    decreases |es|
  {
    if |es| > 0 {
      var init, last := es[..|es| - 1], es[|es| - 1];
      assert es == init + [last];
      AccumulateKeys(init, id);
      MentionsAppend(init, last, id);
    }
  }

  /** A study's set is the union of the variables of every entry carrying its id. */
  lemma {:induction false} AccumulateVars(es: seq<Entry>, id: string, v: string)
    requires id in Accumulate(es).vars
    ensures v in Accumulate(es).vars[id] <==> Contributes(es, id, v)
    decreases |es|
  {
    var init, last := es[..|es| - 1], es[|es| - 1];
    assert es == init + [last];
    var prev := Accumulate(init);
    ContributesAppend(init, last, id, v);
    AccumulateKeys(init, id);
    if id in prev.vars {
      AccumulateVars(init, id, v);
    }
  }

  /** Study ids come out in the order of their first occurrence in the entries. */
  lemma {:induction false} AccumulateOrder(es: seq<Entry>, a: nat, b: nat)
    requires a < b < |Accumulate(es).order|
    ensures FirstIndex(es, Accumulate(es).order[a]) < FirstIndex(es, Accumulate(es).order[b])
    decreases |es|
  {
    var init, last := es[..|es| - 1], es[|es| - 1];
    assert es == init + [last];
    var prev := Accumulate(init);
    assert Accumulate(es) == AddEntry(prev, last);
    AccumulateValid(init);
    OrderStep(prev, last, a);
    KnownFirstIndex(init, last, prev.order[a]);
    if b < |prev.order| {
      OrderStep(prev, last, b);
      KnownFirstIndex(init, last, prev.order[b]);
      AccumulateOrder(init, a, b);
    } else {
      OrderStep(prev, last, b);
      NewFirstIndex(init, last);
    }
  }

  /** Folding in an entry keeps the listed ids and appends at most its own, when new. */
  lemma OrderStep(st: Studies, e: Entry, k: nat)
    requires Valid(st) && k < |AddEntry(st, e).order|
    ensures k < |st.order| ==> AddEntry(st, e).order[k] == st.order[k] && st.order[k] in st.vars
    ensures k >= |st.order| ==> AddEntry(st, e).order[k] == e.studyId && e.studyId !in st.vars
  {
  }

  /** A study already seen keeps its first index when an entry is appended. */
  lemma KnownFirstIndex(init: seq<Entry>, last: Entry, id: string)
    requires id in Accumulate(init).vars
    ensures FirstIndex(init + [last], id) == FirstIndex(init, id) < |init|
  {
    AccumulateKeys(init, id);
    FirstIndexOfMentioned(init, id);
    FirstIndexAppend(init, last, id);
  }

  /** A study first seen in the appended entry has that entry's index. */
  lemma NewFirstIndex(init: seq<Entry>, last: Entry)
    requires last.studyId !in Accumulate(init).vars
    ensures FirstIndex(init + [last], last.studyId) == |init|
  {
    AccumulateKeys(init, last.studyId);
    FirstIndexOfMentioned(init, last.studyId);
    FirstIndexAppend(init, last, last.studyId);
  }

  /**
   The variable sets do not depend on entry order or on repeated entries:
   two inputs holding the same entries give the same map.
   */
  lemma AccumulateSameEntries(es: seq<Entry>, es': seq<Entry>)
    requires forall e :: e in es <==> e in es'
    ensures Accumulate(es).vars == Accumulate(es').vars
  {
    var m, m' := Accumulate(es).vars, Accumulate(es').vars;
    forall id ensures id in m <==> id in m' {
      AccumulateKeys(es, id);
      AccumulateKeys(es', id);
      if Mentions(es, id) {
        var i :| 0 <= i < |es| && es[i].studyId == id;
        assert es[i] in es';
      }
      if Mentions(es', id) {
        var i :| 0 <= i < |es'| && es'[i].studyId == id;
        assert es'[i] in es;
      }
    }
    forall id | id in m ensures m[id] == m'[id] {
      forall v ensures v in m[id] <==> v in m'[id] {
        AccumulateVars(es, id, v);
        AccumulateVars(es', id, v);
        if Contributes(es, id, v) {
          var i :| 0 <= i < |es| && es[i].studyId == id && v in es[i].vars;
          assert es[i] in es';
        }
        if Contributes(es', id, v) {
          var i :| 0 <= i < |es'| && es'[i].studyId == id && v in es'[i].vars;
          assert es'[i] in es;
        }
      }
    }
  }

  /** Repeating an entry that has already been read changes nothing, not even the order. */
  lemma AccumulateRepeatedEntry(es: seq<Entry>, k: nat)
    requires k < |es|
    ensures Accumulate(es + [es[k]]) == Accumulate(es)
  {
    var es' := es + [es[k]];
    assert es'[..|es'| - 1] == es;
    var st := Accumulate(es);
    var id := es[k].studyId;
    assert id in st.vars by {
      AccumulateKeys(es, id);
      assert Mentions(es, id);
    }
    assert es[k].vars <= st.vars[id] by {
      forall v | v in es[k].vars ensures v in st.vars[id] {
        AccumulateVars(es, id, v);
        assert Contributes(es, id, v);
      }
    }
    AddKnownEntry(st, es[k]);
  }

  /** Adding variables a study already has leaves the accumulator as it is. */
  lemma AddKnownEntry(st: Studies, e: Entry)
    requires e.studyId in st.vars && e.vars <= st.vars[e.studyId]
    ensures AddEntry(st, e) == st
  {
    var id := e.studyId;
    assert st.vars[id] + e.vars == st.vars[id];
    assert st.vars[id := st.vars[id]] == st.vars;
  }

  /** Lines 17-24 on spreadsheet rows: extract every row, then fold. */
  function Extract(rows: seq<Row>, ws: set<char>): Studies {
    Accumulate(Parse(rows, ws))
  }

  /** Every study id of the report is listed once and has a variable set. */
  lemma ExtractValid(rows: seq<Row>, ws: set<char>)
    ensures Valid(Extract(rows, ws))
  {
    AccumulateValid(Parse(rows, ws));
  }

  /**
   A study's variable set holds exactly the variables of the rows carrying
   its id, and every one of them is well formed.
   */
  lemma ExtractVars(rows: seq<Row>, ws: set<char>, id: string, v: string)
    requires id in Extract(rows, ws).vars
    ensures v in Extract(rows, ws).vars[id] <==>
      exists i :: 0 <= i < |rows| && rows[i].studyId == id && v in Tokens(rows[i].text, ws)
    ensures v in Extract(rows, ws).vars[id] ==> IsVariable(v, ws)
  {
    var es := Parse(rows, ws);
    AccumulateVars(es, id, v);
    if Contributes(es, id, v) {
      var i :| 0 <= i < |es| && es[i].studyId == id && v in es[i].vars;
      assert rows[i].studyId == id && v in Tokens(rows[i].text, ws);
    }
    if exists i :: 0 <= i < |rows| && rows[i].studyId == id && v in Tokens(rows[i].text, ws) {
      var i :| 0 <= i < |rows| && rows[i].studyId == id && v in Tokens(rows[i].text, ws);
      assert es[i].studyId == id && v in es[i].vars;
    }
  }

  /** The studies are exactly the ids that some row carries. */
  lemma ExtractKeys(rows: seq<Row>, ws: set<char>, id: string)
    ensures id in Extract(rows, ws).vars <==> exists i :: 0 <= i < |rows| && rows[i].studyId == id
  {
    var es := Parse(rows, ws);
    AccumulateKeys(es, id);
    if Mentions(es, id) {
      var i :| 0 <= i < |es| && es[i].studyId == id;
      assert rows[i].studyId == id;
    }
    if exists i :: 0 <= i < |rows| && rows[i].studyId == id {
      var i :| 0 <= i < |rows| && rows[i].studyId == id;
      assert es[i].studyId == id;
    }
  }

  /**
   Each study id appears once, ordered by the index of the first row that
   carries it.
   */
  lemma ExtractOrder(rows: seq<Row>, ws: set<char>, a: nat, b: nat)
    requires a < b < |Extract(rows, ws).order|
    ensures Extract(rows, ws).order[a] != Extract(rows, ws).order[b]
    ensures exists i :: 0 <= i < |rows| && rows[i].studyId == Extract(rows, ws).order[a] &&
              forall j :: 0 <= j <= i ==> rows[j].studyId != Extract(rows, ws).order[b]
  {
    var es := Parse(rows, ws);
    var order := Extract(rows, ws).order;
    AccumulateValid(es);
    AccumulateOrder(es, a, b);
    var i := FirstIndex(es, order[a]);
    AccumulateKeys(es, order[a]);
    FirstIndexOfMentioned(es, order[a]);
    assert rows[i].studyId == order[a];
    assert forall j :: 0 <= j <= i ==> rows[j].studyId != order[b] by {
      forall j | 0 <= j <= i ensures rows[j].studyId != order[b] {
        assert es[j].studyId == rows[j].studyId;
      }
    }
  }

  /**
   Every variable of every study is well formed. The conjunct `',' !in v`
   repeats part of `IsVariable` on purpose: it hands callers the comma fact
   without unfolding `IsVariable` under the quantifier.
   */
  lemma ExtractWellFormed(rows: seq<Row>, ws: set<char>)
    ensures forall id, v :: id in Extract(rows, ws).vars && v in Extract(rows, ws).vars[id] ==>
              IsVariable(v, ws) && ',' !in v
  {
    forall id, v | id in Extract(rows, ws).vars && v in Extract(rows, ws).vars[id]
      ensures IsVariable(v, ws) && ',' !in v
    {
      ExtractedVariable(rows, ws, id, v);
    }
  }

  /** One variable of one study is well formed (with the comma fact spelled out, as above). */
  lemma ExtractedVariable(rows: seq<Row>, ws: set<char>, id: string, v: string)
    requires id in Extract(rows, ws).vars && v in Extract(rows, ws).vars[id]
    ensures IsVariable(v, ws) && ',' !in v
  {
    ExtractVars(rows, ws, id, v);
  }

  /** Permuting the rows leaves every study's variable set unchanged. */
  lemma ExtractPermutation(rows: seq<Row>, rows': seq<Row>, ws: set<char>)
    requires multiset(rows) == multiset(rows')
    ensures Extract(rows, ws).vars == Extract(rows', ws).vars
  {
    var es, es' := Parse(rows, ws), Parse(rows', ws);
    forall e ensures e in es <==> e in es' {
      if e in es {
        var i :| 0 <= i < |es| && es[i] == e;
        assert rows[i] in multiset(rows);
        var j :| 0 <= j < |rows'| && rows'[j] == rows[i];
        assert es'[j] == e;
      }
      if e in es' {
        var i :| 0 <= i < |es'| && es'[i] == e;
        assert rows'[i] in multiset(rows');
        var j :| 0 <= j < |rows| && rows[j] == rows'[i];
        assert es[j] == e;
      }
    }
    AccumulateSameEntries(es, es');
  }

  /** A well-formed variable strips to itself. */
  lemma StripVariable(v: string, ws: set<char>)
    requires IsVariable(v, ws)
    ensures Text.Strip(v, ws) == v
  {
    Text.StripUnchanged(v, ws);
  }

  /** Two entries for the same study fold into that study alone, with the union of their sets. */
  lemma AccumulateTwoOfOneStudy(es: seq<Entry>)
    requires |es| == 2 && es[0].studyId == es[1].studyId
    ensures Accumulate(es) == Studies([es[0].studyId], map[es[0].studyId := es[0].vars + es[1].vars])
  {
    var id := es[0].studyId;
    var first := es[..1];
    assert |first| == 1 && first[0] == es[0] && first[..0] == [];
    assert Accumulate(first[..0]) == Studies([], map[]);
    var st1 := Accumulate(first);
    assert st1 == AddEntry(Studies([], map[]), es[0]);
    assert st1 == Studies([id], map[id := es[0].vars]);
    assert Accumulate(es) == AddEntry(st1, es[1]);
  }
}
